=== FILE: README.md ===
# Local player and frame loop of the Redis grid game

This project models the client side of a small multi-player grid game. A
local player has a name, a grid size, a position and an RGB colour. It moves
one cell at a time on a torus, either by arrow keys or by a random auto-move.
Every change is published to a Redis server as a hash keyed by the player's
name, with a `position` and a `color` field holding JSON text. The game
loop runs at a fixed frame rate. It advances a frame counter, and only on
every `FRAMES_PER_MOVE`-th frame (3) does it auto-move the player and drain
the pygame event queue. A window close or the `q` key ends the loop. The
`a` key toggles auto-move, and every other event goes to the player's event
handler.

Modules:

- `Wrappers`: `Option` and `Result`.
- `Store`: the Redis server as a map from key to hash (`map<string, Json>`),
  with `HSET` (one field or a mapping) and `DEL`. JSON values are a small
  tree (`JInt`, `JList`) instead of text.
- `Random`: `random.randint` and `random.choice`, with the randomness
  supplied by the caller as a natural-number draw.
- `Modular`: facts about Euclidean `%` used by the movement proofs.
- `LocalPlayer`: `random_color`, `random_move` and the `Player` class
  (`redis/player.py`).
- `Game`: the body of the `while True` loop in `main` (`redis/game.py`),
  one frame per `Tick`, many frames per `Run`, and the start-up before the
  loop.

Python's `%` with a positive modulus equals Dafny's `%`. Both give a result
in `[0, n)` for a negative left operand too, so the wrap-around of `move` is
modelled directly. Positions and colours are unbounded integers, as in Python.

## Model

| member | source | states |
|---|---|---|
| Store.HSet | redis/player.py:43 | after `HSET key field v` the field holds v, no other key changes and no other field of the hash changes; a missing key starts as an empty hash |
| Store.HSetMapping | redis/player.py:62 | `HSET key mapping=m` sets every field of m, keeps the hash's other fields and touches no other key |
| Store.Delete | redis/player.py:65 | `DEL key` removes the key and nothing else |
| Random.RandInt | redis/player.py:28-29 | `randint(lo, hi)` yields a value exactly when lo <= hi, and the value lies in [lo, hi] |
| Random.RandIntReaches | redis/player.py:28-29 | every value of [lo, hi] is produced by some draw |
| Random.Choice | redis/player.py:11 | `choice(xs)` yields a value exactly when xs is non-empty, and the value is a member of xs |
| Random.ChoiceReaches | redis/player.py:11 | every element of xs is produced by some draw |
| LocalPlayer.RandomColor | redis/player.py:6-7 | a random colour has three channels, each in [0, 255] |
| LocalPlayer.RandomColorReaches | redis/player.py:6-7 | every such colour can be drawn |
| LocalPlayer.Candidates | redis/player.py:10 | the comprehension over x, y in (-1, 0, 1) with abs(x+y) == 1 lists exactly the four steps (-1,0), (0,-1), (0,1), (1,0), in that order |
| LocalPlayer.CandidatesAreUnitSteps | redis/player.py:10 | a step is a candidate exactly when it is a unit step, abs(dx) + abs(dy) == 1 |
| LocalPlayer.RandomStep | redis/player.py:9-11 | `random_move()` returns one of the candidates, a unit step |
| LocalPlayer.RandomStepReaches | redis/player.py:9-11 | each of the four unit steps can be drawn |
| LocalPlayer.NewPlayer | redis/player.py:21-31 | construction succeeds exactly when width and height are at least 1 (`randint(0, -1)` raises otherwise); the player keeps name and size, starts inside the grid and has a valid colour |
| LocalPlayer.NewPlayerReaches | redis/player.py:28-30 | every in-grid position with every valid colour is a possible new player |
| LocalPlayer.EncodePosition | redis/player.py:43 | the stored position `[x, y]` decodes back to (x, y) |
| LocalPlayer.DecodePositionInverts | redis/player.py:43 | a stored position decodes to (x, y) only if it is the encoding of (x, y) |
| LocalPlayer.EncodeColor | redis/player.py:59 | the stored colour `[[r, g, b]]` decodes back to the colour |
| LocalPlayer.DecodeColorInverts | redis/player.py:59 | a stored colour decodes to c only if it is the encoding of c |
| LocalPlayer.Shifted | redis/player.py:38-42 | moving changes only the position, and the new position is inside the grid |
| LocalPlayer.ShiftedIsResidue | redis/player.py:39-42 | the new coordinates are congruent to the old ones plus (dx, dy) modulo the grid size |
| LocalPlayer.ShiftedIsOnlyResidue | redis/player.py:39-42 | an in-grid cell congruent to the old position plus (dx, dy) is the moved position, so congruence and the bounds determine the result of Python's `%` |
| LocalPlayer.ShiftedUndo | redis/player.py:38-42 | moving by (dx, dy) and then by (-dx, -dy) returns an in-grid player to where it was |
| LocalPlayer.ShiftedUnitSteps | redis/player.py:38-42 | each unit step moves one coordinate to its cyclic successor or predecessor and keeps the other |
| LocalPlayer.MoveWrapsAround | redis/player.py:39-42 | stepping right from the last column lands on column 0, and stepping up from row 0 lands on the last row |
| LocalPlayer.Move | redis/player.py:38-43 | `move` publishes the new position under the player's name, and changes no other key and no other field |
| LocalPlayer.RandomMove | redis/player.py:35-36 | an auto-move puts a valid player on a cell adjacent on the torus and publishes it |
| LocalPlayer.RandomMoveReaches | redis/player.py:35-36 | every adjacent cell is a possible auto-move |
| LocalPlayer.HandleEvent | redis/player.py:46-59 | up and down move to the previous and next row, right and left to the next and previous column, each published; `c` replaces the colour by a freshly drawn `random_color()`, publishes it and changes nothing else; every other event changes nothing; the player stays valid |
| LocalPlayer.Join | redis/player.py:61-62 | joining publishes both the position and the colour and changes no other key |
| LocalPlayer.Leave | redis/player.py:64-65 | leaving removes the player's key and nothing else |
| LocalPlayer.JoinThenLeave | redis/player.py:61-65 | joining and then leaving leaves the server as leaving alone would |
| Game.Consume | redis/game.py:84-91 | draining events keeps the player valid and its name and size fixed |
| Game.ConsumeToggles | redis/game.py:84-91 | with no quit request draining runs to the end of the batch, and auto-move ends flipped exactly when the number of `a` presses is odd |
| Game.ConsumeHandlesAll | redis/game.py:84-91 | with no quit request the player and the server after draining are exactly those of handing every event of the batch, in order, to `handle_event` (Game.HandleAll); `a` presses and the auto-move flag do not affect them |
| Game.EvenTogglesRestore | redis/game.py:88-89 | an even number of `a` presses and no quit leaves auto-move as it was |
| Game.ConsumeStopsAtQuit | redis/game.py:85-87 | the first quit request or `q` ends the loop with the state produced by the events before it; later events are not handled |
| Game.ConsumeEndsIff | redis/game.py:84-91 | draining ends the loop exactly when a quit request or `q` is among the events |
| Game.MovePhase | redis/game.py:81-91 | the move phase keeps the player valid with its name and size |
| Game.MovePhaseAutoMoves | redis/game.py:81-84 | with auto-move on, the move phase makes exactly one move to an adjacent cell, publishes it and changes no other key, and only then drains the batch; with auto-move off it drains the batch from the player as it is |
| Game.Tick | redis/game.py:72-97 | a frame is a move frame exactly when the incremented counter is a multiple of 3; only a move frame can end the loop or change the player, the server or auto-move; a move frame resets the counter and drains the queue, other frames keep the arrived events queued; each frame displays exactly the player's colour and position |
| Game.MovePhaseEndsIff | redis/game.py:81-91 | the move phase ends the loop exactly when a quit request or `q` is among the drained events, whether or not the player auto-moved first |
| Game.TickStopsIff | redis/game.py:78-91 | a move frame ends the loop exactly when a quit request is among the events queued before it or arrived during it |
| Game.TickMoveFrame | redis/game.py:79-91 | a move frame without a quit request goes on; auto-move ends flipped by the parity of the `a` presses in the batch; the player and the server are those of handing every event of the batch to `handle_event`, after one published auto-move to an adjacent cell when auto-move was on and from the player as it was otherwise |
| Game.MovePhaseNoQuit | redis/game.py:81-91 | the same for the move phase on the drained batch |
| Game.TickAutoMove | redis/game.py:79-83 | on a move frame with no events, auto-move moves the player to an adjacent cell and publishes it, and without auto-move nothing changes |
| Game.Run | redis/game.py:70-97 | a run keeps the player valid; it runs every frame unless it quits, and it quits only on a move frame |
| Game.RunStopsAtQuit | redis/game.py:85-87 | a quitting frame ends the run: after k frames without a quit, a frame k that stops gives the run's end state, its trace ends with that frame, and no later frame is run |
| Game.RunFollowsSchedule | redis/game.py:78-80 | the move frames of a run are those of the counter's schedule, and a run that did not quit leaves the counter where the schedule does |
| Game.ScheduleAt | redis/game.py:78-80 | from counter c, frame k + 1 is a move frame exactly when c + k + 1 is a multiple of 3 |
| Game.CounterAfterIsResidue | redis/game.py:78-80 | after n frames the counter is (c + n) mod 3 |
| Game.ScheduleCount | redis/game.py:78-80 | n frames from counter c contain (c + n) div 3 move frames |
| Game.RunFromStart | redis/game.py:69-80 | from a fresh loop, every third frame moves, and n frames without quitting make n div 3 moves and end with counter n mod 3 |
| Game.LaunchAsWritten | redis/game.py:52-69 | start-up as written: it fails exactly when a screen side is below 1; the player keeps the given name but gets the screen height as its width and the screen width as its height, so x ranges over the height; the loop starts with the given server and auto-move flag, counter 0 and no queued events, and the display shows the player's colour and position |
| Game.LaunchAsWrittenSwapsSize | redis/game.py:52-56 | the as-written start-up equals the corrected one on a screen with width and height exchanged |
| Game.LaunchAsWrittenLeavesScreen | redis/game.py:52-56 | on a screen 10 wide and 20 high the as-written start-up can place the player at x = 15, off the screen |
| Game.Launch | redis/game.py:52-69 | corrected start-up: it fails exactly when a screen side is below 1; the player keeps the given name, its grid is the screen and it is valid; the loop starts with the given server and auto-move flag, counter 0 and no queued events, and the display shows the player's colour and position |
| Game.StaysOnScreen | redis/game.py:52-97 | after the corrected start-up, every run keeps the player on the screen |

## Left out

- The argument parser, the window caption, the `print` and the Redis
  connection (redis/game.py:32-49) are set-up. The server handle is a
  parameter, and the auto-move flag is an argument of `Launch`.
- `Screen` (redis/game.py:51-52, 64, 97) is not part of this model. Its
  size is a pair of parameters, and `display` is modelled as the list each
  frame returns.
- `Others` and the call `others.fetch()` (redis/game.py:57, 77) are not part
  of this model. Its result is overwritten before use. The model assumes
  that `fetch` leaves the server unchanged; the claim of Game.Tick that a
  frame without a move keeps the server rests on that assumption.
- Other clients share the Redis server, and their writes between frames
  are not modelled. Every "server" in a contract is the server as this
  client's own commands leave it.
- `clock.tick(FRAME_RATE)` (redis/game.py:72) only sleeps. Time is not
  modelled, so a frame is one step.
- The pygame event source is not modelled. The events that arrive during a
  frame are a parameter. Events wait in a queue until the next move frame,
  because `pg.event.get()` runs only then. The queue is unbounded, while
  pygame's queue has a fixed size and drops events beyond it.
- JSON text is not modelled: `json.dumps` is modelled as building a JSON
  tree, and the stored value is that tree. `decode_responses` and the
  network protocol of Redis are left out with it.
- The server holds only hashes, so Redis's WRONGTYPE error, which `HSET`
  raises on a key holding a value of another type (redis/player.py:43, 59,
  62), cannot occur in the model.
- `Join` and `Leave` are modelled, but redis/game.py never calls them, so
  the model's loop does not join the player on start-up or remove it on quit.
- LocalPlayer.Move: requires width and height of at least 1, which every
  player built by the constructor has. Python would raise
  `ZeroDivisionError` for a zero size.
- LocalPlayer.RandomMove: requires width and height of at least 1, for
  the same reason as LocalPlayer.Move.
- LocalPlayer.HandleEvent: requires a valid player, which is every player
  the constructor and the loop produce.
- Game.Run: its own contract states only validity, lengths and quitting on
  a move frame. The frame schedule is stated by Game.RunFollowsSchedule and
  Game.RunFromStart, and the end of a run at the first quitting frame by
  Game.RunStopsAtQuit.
- Randomness is a caller-supplied draw per call. The `...Reaches` lemmas
  show that every value Python's generator can return is drawable. The
  distribution is not modelled.
- The chat application and the other programs of the repository are not
  part of this model.

## Findings

| source | as written | input that shows it | evidently intended | confidence | as-written member | corrected member |
|---|---|---|---|---|---|---|
| redis/game.py:56 | `Player(local_player_name, H, W, redis_server)` passes the screen height as the player's width and the width as its height, where `W, H = screen.size()` | a screen 10 wide and 20 high with x draw 15: the player starts at x = 15, outside the 10 columns | `Player(local_player_name, W, H, redis_server)`, so the player's grid is the screen | not executed; medium, because `Screen.size()` is not part of this model and may itself return (height, width) | Game.LaunchAsWritten, Game.LaunchAsWrittenSwapsSize, Game.LaunchAsWrittenLeavesScreen | Game.Launch, Game.StaysOnScreen |

=== FILE: game.dfy ===
/**
 * The frame loop of the game client (redis/game.py, `main`).  One call of
 * `Tick` is one pass of the `while True` body: the frame counter advances,
 * and only every FRAMES_PER_MOVE-th frame does the player auto-move and the
 * pending pygame events get drained and handled.  Rendering, clock timing
 * and the event source are outside the model: the events that arrive during
 * a frame and the random draws are parameters, and each tick returns the
 * list handed to the display.
 */
module Game {
  import opened Wrappers
  import opened Store
  import opened LocalPlayer

  /** How many frames pass between two moves of the local player. */
  const FRAMES_PER_MOVE: nat := 3

  /**
   * The loop's variables.  `queue` holds the events pygame has buffered but
   * the loop has not fetched yet: `pg.event.get()` only runs on move frames.
   */
  datatype State = State(player: Player, server: Server, autoMove: bool, counter: nat, queue: seq<Event>)

  /** One entry of the list passed to `screen.display`: {'color': ..., 'position': ...}. */
  datatype Sprite = Sprite(color: seq<int>, x: int, y: int)

  /** Whether draining the events ran to the end or hit a quit request. */
  datatype Outcome = Live(st: State) | Ended(st: State)

  /** One frame: either the loop goes on and shows `shown`, or `main` returns. */
  datatype Step = Continue(st: State, shown: seq<Sprite>, movePhase: bool) | Stop(st: State)

  /** The window-close event and the `q` key both end the loop. */
  predicate EndsLoop(e: Event)
  {
    e == Quit || e == KeyDown(KeyQ)
  }

  /** Some event of the batch ends the loop. */
  predicate HasQuit(events: seq<Event>)
  {
    exists k :: 0 <= k < |events| && EndsLoop(events[k])
  }

  /** The fields of the player that no event can change. */
  predicate SameIdentity(p: Player, q: Player)
  {
    q.name == p.name && q.width == p.width && q.height == p.height
  }

  /**
   * The `for event in pg.event.get()` loop from position `i` on: quit
   * returns at once, `a` flips auto-move, anything else goes to
   * `handle_event`.  `draws(k)` is the colour draw of the k-th event.
   */
  function Consume(g: State, events: seq<Event>, i: nat, draws: nat -> ColorDraw): (r: Outcome)
    requires g.player.Valid() && i <= |events|
    ensures r.st.player.Valid() && SameIdentity(g.player, r.st.player)
    ensures r.st.counter == g.counter && r.st.queue == g.queue
    decreases |events| - i
  {
    if i == |events| then Live(g)
    else if EndsLoop(events[i]) then Ended(g)
    else if events[i] == KeyDown(KeyA) then Consume(g.(autoMove := !g.autoMove), events, i + 1, draws)
    else
      var l := HandleEvent(g.player, g.server, events[i], draws(i));
      Consume(g.(player := l.player, server := l.server), events, i + 1, draws)
  }

  /** The body of `if counter % FRAMES_PER_MOVE == 0`: auto-move first, then drain the events. */
  function MovePhase(g: State, events: seq<Event>, moveDraw: nat, draws: nat -> ColorDraw): (r: Outcome)
    requires g.player.Valid()
    ensures r.st.player.Valid() && SameIdentity(g.player, r.st.player)
    ensures r.st.counter == g.counter && r.st.queue == g.queue
  {
    var g' :=
      if g.autoMove then
        var l := RandomMove(g.player, g.server, moveDraw);
        g.(player := l.player, server := l.server)
      else g;
    Consume(g', events, 0, draws)
  }

  /** `players = [{'color': player.color, 'position': player.position}]`. */
  function Show(p: Player): seq<Sprite>
  {
    [Sprite(p.color, p.x, p.y)]
  }

  /**
   * One pass of the loop body.  `arrived` are the events pygame queued
   * during this frame, `moveDraw` the draw of `random_move`.
   */
  function Tick(g: State, arrived: seq<Event>, moveDraw: nat, draws: nat -> ColorDraw): (r: Step)
    requires g.player.Valid()
    ensures r.st.player.Valid() && SameIdentity(g.player, r.st.player)
    ensures r.Continue? ==> (r.movePhase <==> (g.counter + 1) % FRAMES_PER_MOVE == 0)
    ensures r.Stop? ==> (g.counter + 1) % FRAMES_PER_MOVE == 0
    ensures g.counter < FRAMES_PER_MOVE ==> r.st.counter < FRAMES_PER_MOVE
    ensures r.Continue? ==> r.st.counter == NextCounter(g.counter)
    ensures r.Continue? && !r.movePhase ==>
              && r.st.player == g.player && r.st.server == g.server && r.st.autoMove == g.autoMove
              && r.st.counter == g.counter + 1 && r.st.queue == g.queue + arrived
    ensures r.Continue? && r.movePhase ==> r.st.counter == 0 && r.st.queue == []
    ensures r.Continue? ==>
              && |r.shown| == 1
              && r.shown[0].color == r.st.player.color
              && (r.shown[0].x, r.shown[0].y) == (r.st.player.x, r.st.player.y)
  {
    var counter := g.counter + 1;
    if counter % FRAMES_PER_MOVE == 0 then
      match MovePhase(g.(counter := 0, queue := []), g.queue + arrived, moveDraw, draws)
      case Ended(g') => Stop(g')
      case Live(g') => Continue(g', Show(g'.player), true)
    else
      Continue(g.(counter := counter, queue := g.queue + arrived), Show(g.player), false)
  }

  /* ------------------------------------------------------------ many frames */

  /** What one frame supplies: the events that arrived and the random draws. */
  datatype Frame = Frame(arrived: seq<Event>, moveDraw: nat, colorDraws: nat -> ColorDraw)

  /** Where a run ended, and for each frame that ran whether it was a move frame. */
  datatype History = History(last: Outcome, trace: seq<bool>)

  /**
   * The loop over a sequence of frames, stopping at the first quit.  Its
   * trace of move frames is the counter's schedule, and a run that did not
   * quit leaves the counter where the schedule does.
   */
  function Run(g: State, frames: seq<Frame>): (h: History)
    requires g.player.Valid()
    ensures h.last.st.player.Valid() && SameIdentity(g.player, h.last.st.player)
    ensures |h.trace| <= |frames|
    ensures h.last.Live? ==> |h.trace| == |frames|
    ensures h.last.Ended? ==> |h.trace| > 0 && h.trace[|h.trace| - 1]
    decreases |frames|
  {
    if |frames| == 0 then History(Live(g), [])
    else
      var step := Tick(g, frames[0].arrived, frames[0].moveDraw, frames[0].colorDraws);
      if step.Stop? then History(Ended(step.st), [true])
      else
        var rest := Run(step.st, frames[1..]);
        History(rest.last, [step.movePhase] + rest.trace)
  }

  /**
   * The frames of a run follow the counter's schedule, and a run that did
   * not quit leaves the counter where the schedule does.
   */
  lemma {:induction false} RunFollowsSchedule(g: State, frames: seq<Frame>)
    requires g.player.Valid()
    ensures Run(g, frames).trace == Schedule(g.counter, |Run(g, frames).trace|)
    ensures Run(g, frames).last.Live? ==> Run(g, frames).last.st.counter == CounterAfter(g.counter, |frames|)
    decreases |frames|
  {
    if |frames| > 0 {
      var step := Tick(g, frames[0].arrived, frames[0].moveDraw, frames[0].colorDraws);
      if step.Continue? {
        RunFollowsSchedule(step.st, frames[1..]);
      }
    }
  }

  /**
   * A quitting frame ends the run: if the first k frames ran without
   * quitting and frame k stops the loop, the run ends there with frame k
   * recorded as a move frame, and no later frame is looked at.
   */
  lemma {:induction false} RunStopsAtQuit(g: State, frames: seq<Frame>, k: nat)
    requires g.player.Valid() && k < |frames|
    requires Run(g, frames[..k]).last.Live?
    requires Tick(Run(g, frames[..k]).last.st, frames[k].arrived, frames[k].moveDraw, frames[k].colorDraws).Stop?
    ensures StopsAt(g, frames, k)
    decreases k
  {
    if k > 0 {
      var step := Tick(g, frames[0].arrived, frames[0].moveDraw, frames[0].colorDraws);
      PrefixTail(frames, k);
      RunFirstFrame(g, frames[..k]);
      RunStopsAtQuit(step.st, frames[1..], k - 1);
      StopsAtLater(g, frames, k);
    }
  }

  /**
   * The conclusion of RunStopsAtQuit: the run ends after frame k, in the
   * state frame k stopped in, with frame k last in the trace.
   */
  predicate StopsAt(g: State, frames: seq<Frame>, k: nat)
    requires g.player.Valid() && k < |frames|
  {
    var before := Run(g, frames[..k]);
    && before.last.Live?
    && var last := Tick(before.last.st, frames[k].arrived, frames[k].moveDraw, frames[k].colorDraws);
       Run(g, frames) == History(Ended(last.st), before.trace + [true])
  }

  /** Stopping at frame k - 1 of the rest of a run is stopping at frame k of the run. */
  lemma StopsAtLater(g: State, frames: seq<Frame>, k: nat)
    requires g.player.Valid() && 0 < k < |frames|
    requires Tick(g, frames[0].arrived, frames[0].moveDraw, frames[0].colorDraws).Continue?
    requires StopsAt(Tick(g, frames[0].arrived, frames[0].moveDraw, frames[0].colorDraws).st, frames[1..], k - 1)
    ensures StopsAt(g, frames, k)
  {
    var step := Tick(g, frames[0].arrived, frames[0].moveDraw, frames[0].colorDraws);
    PrefixTail(frames, k);
    RunFirstFrame(g, frames[..k]);
    RunFirstFrame(g, frames);
    var rest := Run(step.st, frames[1..][..k - 1]);
    ConsThenSnoc(step.movePhase, rest.trace, true);
  }

  lemma PrefixTail<T>(s: seq<T>, k: nat)
    requires 0 < k < |s|
    ensures s[..k][0] == s[0] && s[..k][1..] == s[1..][..k - 1] && s[1..][k - 1] == s[k]
  {
  }

  lemma ConsThenSnoc<T>(x: T, xs: seq<T>, y: T)
    ensures [x] + (xs + [y]) == ([x] + xs) + [y]
  {
  }

  /** A run whose first frame goes on is that frame followed by the run of the rest. */
  lemma RunFirstFrame(g: State, frames: seq<Frame>)
    requires g.player.Valid() && |frames| > 0
    requires Tick(g, frames[0].arrived, frames[0].moveDraw, frames[0].colorDraws).Continue? ||
             Run(g, frames).last.Live?
    ensures var step := Tick(g, frames[0].arrived, frames[0].moveDraw, frames[0].colorDraws);
      && step.Continue?
      && Run(g, frames) == History(Run(step.st, frames[1..]).last, [step.movePhase] + Run(step.st, frames[1..]).trace)
  {
  }

  /** The counter after one frame (game.py increments it and resets it on a move frame). */
  function NextCounter(c: nat): nat
  {
    if (c + 1) % FRAMES_PER_MOVE == 0 then 0 else c + 1
  }

  /** The counter after n frames. */
  function CounterAfter(c: nat, n: nat): nat
    decreases n
  {
    if n == 0 then c else CounterAfter(NextCounter(c), n - 1)
  }

  /** Which of the next n frames are move frames, starting from counter c. */
  function Schedule(c: nat, n: nat): (r: seq<bool>)
    ensures |r| == n
    decreases n
  {
    if n == 0 then [] else [(c + 1) % FRAMES_PER_MOVE == 0] + Schedule(NextCounter(c), n - 1)
  }

  /** The number of `true` entries. */
  function Count(bs: seq<bool>): nat
  {
    if |bs| == 0 then 0 else (if bs[0] then 1 else 0) + Count(bs[1..])
  }

  /** Counting frames from 1, frame k + 1 moves exactly when counter + k + 1 is a multiple of FRAMES_PER_MOVE. */
  lemma {:induction false} ScheduleAt(c: nat, n: nat, k: nat)
    requires c < FRAMES_PER_MOVE && k < n
    ensures |Schedule(c, n)| == n
    ensures Schedule(c, n)[k] <==> (c + k + 1) % FRAMES_PER_MOVE == 0
    decreases k
  {
    if k > 0 {
      var c' := NextCounter(c);
      assert c' == (c + 1) % FRAMES_PER_MOVE;
      ScheduleAt(c', n - 1, k - 1);
      assert Schedule(c, n)[k] == Schedule(c', n - 1)[k - 1];
      assert (c' + (k - 1) + 1) % FRAMES_PER_MOVE == (c + k + 1) % FRAMES_PER_MOVE by {
        if c == FRAMES_PER_MOVE - 1 {
          assert c' + (k - 1) + 1 + FRAMES_PER_MOVE == c + k + 1;
        }
      }
    }
  }

  /** The counter cycles through 0 .. FRAMES_PER_MOVE - 1. */
  lemma {:induction false} CounterAfterIsResidue(c: nat, n: nat)
    requires c < FRAMES_PER_MOVE
    ensures CounterAfter(c, n) == (c + n) % FRAMES_PER_MOVE
    decreases n
  {
    if n > 0 {
      var c' := NextCounter(c);
      assert c' == (c + 1) % FRAMES_PER_MOVE;
      CounterAfterIsResidue(c', n - 1);
      assert CounterAfter(c, n) == CounterAfter(c', n - 1);
      assert (c' + (n - 1)) % FRAMES_PER_MOVE == (c + n) % FRAMES_PER_MOVE by {
        if c == FRAMES_PER_MOVE - 1 {
          assert c' + (n - 1) + FRAMES_PER_MOVE == c + n;
        }
      }
    }
  }

  /** From counter c, n frames contain (c + n) / FRAMES_PER_MOVE move frames. */
  lemma {:induction false} ScheduleCount(c: nat, n: nat)
    requires c < FRAMES_PER_MOVE
    ensures Count(Schedule(c, n)) == (c + n) / FRAMES_PER_MOVE
    decreases n
  {
    if n > 0 {
      var c' := NextCounter(c);
      assert c' == (c + 1) % FRAMES_PER_MOVE;
      var t := Schedule(c, n);
      assert t[1..] == Schedule(c', n - 1);
      ScheduleCount(c', n - 1);
      assert Count(t) == (if c == FRAMES_PER_MOVE - 1 then 1 else 0) + (c' + (n - 1)) / FRAMES_PER_MOVE;
      assert (if c == FRAMES_PER_MOVE - 1 then 1 else 0) + (c' + (n - 1)) / FRAMES_PER_MOVE == (c + n) / FRAMES_PER_MOVE by {
        if c == FRAMES_PER_MOVE - 1 {
          assert c' + (n - 1) + FRAMES_PER_MOVE == c + n;
        }
      }
    }
  }

  /**
   * The throttling schedule of a run from a fresh loop (counter 0): frame
   * k + 1 is a move frame exactly when k + 1 is a multiple of
   * FRAMES_PER_MOVE, and n frames without quitting end with the counter at
   * n % FRAMES_PER_MOVE after n / FRAMES_PER_MOVE moves.
   */
  lemma RunFromStart(g: State, frames: seq<Frame>)
    requires g.player.Valid() && g.counter == 0
    ensures var h := Run(g, frames);
      forall k :: 0 <= k < |h.trace| ==> (h.trace[k] <==> (k + 1) % FRAMES_PER_MOVE == 0)
    ensures var h := Run(g, frames);
      h.last.Live? ==> h.last.st.counter == |frames| % FRAMES_PER_MOVE
    ensures var h := Run(g, frames);
      h.last.Live? ==> Count(h.trace) == |frames| / FRAMES_PER_MOVE
  {
    var h := Run(g, frames);
    RunFollowsSchedule(g, frames);
    assert h.trace == Schedule(0, |h.trace|);
    FreshSchedule(|h.trace|);
    if h.last.Live? {
      assert |h.trace| == |frames|;
      CounterAfterIsResidue(0, |frames|);
    }
  }

  /** The schedule of a fresh loop: every FRAMES_PER_MOVE-th frame moves. */
  lemma FreshSchedule(n: nat)
    ensures forall k :: 0 <= k < n ==> (Schedule(0, n)[k] <==> (k + 1) % FRAMES_PER_MOVE == 0)
    ensures Count(Schedule(0, n)) == n / FRAMES_PER_MOVE
  {
    forall k | 0 <= k < n
      ensures Schedule(0, n)[k] <==> (k + 1) % FRAMES_PER_MOVE == 0
    {
      ScheduleAt(0, n, k);
    }
    ScheduleCount(0, n);
  }

  /* -------------------------------------------------------- event handling */

  /** The number of `a` key presses. */
  function Toggles(events: seq<Event>): nat
  {
    if |events| == 0 then 0
    else (if events[0] == KeyDown(KeyA) then 1 else 0) + Toggles(events[1..])
  }

  /** Without a quit request every event is handled, and each `a` flips auto-move once. */
  lemma {:induction false} ConsumeToggles(g: State, events: seq<Event>, i: nat, draws: nat -> ColorDraw)
    requires g.player.Valid() && i <= |events|
    requires forall k :: i <= k < |events| ==> !EndsLoop(events[k])
    ensures var r := Consume(g, events, i, draws);
      r.Live? && r.st.autoMove == (g.autoMove != (Toggles(events[i..]) % 2 == 1))
    decreases |events| - i
  {
    if i < |events| {
      assert events[i..] == [events[i]] + events[i + 1..];
      if events[i] == KeyDown(KeyA) {
        ConsumeToggles(g.(autoMove := !g.autoMove), events, i + 1, draws);
      } else {
        var l := HandleEvent(g.player, g.server, events[i], draws(i));
        ConsumeToggles(g.(player := l.player, server := l.server), events, i + 1, draws);
      }
    }
  }

  /**
   * Every event from position i on handed to `handle_event` in order.  This
   * is the reference for the drained batch: `handle_event` itself ignores
   * `a`, quit requests and every other key it does not know.
   */
  function HandleAll(p: Player, s: Server, events: seq<Event>, i: nat, draws: nat -> ColorDraw): (r: Local)
    requires p.Valid() && i <= |events|
    ensures r.player.Valid() && SameIdentity(p, r.player)
    decreases |events| - i
  {
    if i == |events| then Local(p, s)
    else
      var l := HandleEvent(p, s, events[i], draws(i));
      HandleAll(l.player, l.server, events, i + 1, draws)
  }

  /**
   * Without a quit request the player and the server after draining are
   * those of handing every event to `handle_event`; the auto-move flag and
   * its toggles play no part in them.
   */
  lemma {:induction false} ConsumeHandlesAll(g: State, events: seq<Event>, i: nat, draws: nat -> ColorDraw)
    requires g.player.Valid() && i <= |events|
    requires forall k :: i <= k < |events| ==> !EndsLoop(events[k])
    ensures var r := Consume(g, events, i, draws);
      var h := HandleAll(g.player, g.server, events, i, draws);
      r.st.player == h.player && r.st.server == h.server
    decreases |events| - i
  {
    if i < |events| {
      var l := HandleEvent(g.player, g.server, events[i], draws(i));
      if events[i] == KeyDown(KeyA) {
        assert l == Local(g.player, g.server);
        ConsumeHandlesAll(g.(autoMove := !g.autoMove), events, i + 1, draws);
      } else {
        ConsumeHandlesAll(g.(player := l.player, server := l.server), events, i + 1, draws);
      }
    }
  }

  /** An even number of `a` presses and no quit leaves auto-move as it was. */
  lemma EvenTogglesRestore(g: State, events: seq<Event>, draws: nat -> ColorDraw)
    requires g.player.Valid()
    requires forall k :: 0 <= k < |events| ==> !EndsLoop(events[k])
    requires Toggles(events) % 2 == 0
    ensures Consume(g, events, 0, draws) == Live(Consume(g, events, 0, draws).st)
    ensures Consume(g, events, 0, draws).st.autoMove == g.autoMove
  {
    ConsumeToggles(g, events, 0, draws);
    assert events[0..] == events;
  }

  /**
   * The first quit request ends draining: the result is what handling the
   * events before it produced, and nothing after it is looked at.
   */
  lemma {:induction false} ConsumeStopsAtQuit(g: State, events: seq<Event>, i: nat, j: nat, draws: nat -> ColorDraw)
    requires g.player.Valid() && i <= j < |events| && EndsLoop(events[j])
    requires forall k :: i <= k < j ==> !EndsLoop(events[k])
    ensures Consume(g, events, i, draws) == Ended(Consume(g, events[..j], i, draws).st)
    decreases j - i
  {
    if i < j {
      if events[i] == KeyDown(KeyA) {
        ConsumeStopsAtQuit(g.(autoMove := !g.autoMove), events, i + 1, j, draws);
      } else {
        var l := HandleEvent(g.player, g.server, events[i], draws(i));
        ConsumeStopsAtQuit(g.(player := l.player, server := l.server), events, i + 1, j, draws);
      }
    }
  }

  /** Draining ends the loop exactly when some event from position i on is a quit request. */
  lemma {:induction false} ConsumeEndsIff(g: State, events: seq<Event>, i: nat, draws: nat -> ColorDraw)
    requires g.player.Valid() && i <= |events|
    ensures Consume(g, events, i, draws).Ended? <==> exists k :: i <= k < |events| && EndsLoop(events[k])
    decreases |events| - i
  {
    if i < |events| && !EndsLoop(events[i]) {
      if events[i] == KeyDown(KeyA) {
        ConsumeEndsIff(g.(autoMove := !g.autoMove), events, i + 1, draws);
      } else {
        var l := HandleEvent(g.player, g.server, events[i], draws(i));
        ConsumeEndsIff(g.(player := l.player, server := l.server), events, i + 1, draws);
      }
      assert (exists k :: i <= k < |events| && EndsLoop(events[k]))
         <==> (exists k :: i + 1 <= k < |events| && EndsLoop(events[k]));
    }
  }

  /**
   * With auto-move on, exactly one move to an adjacent cell is made and
   * published before the batch is drained, whatever the batch holds; with
   * auto-move off the batch is drained from the player as it is.
   */
  lemma MovePhaseAutoMoves(g: State, events: seq<Event>, moveDraw: nat, draws: nat -> ColorDraw)
    requires g.player.Valid()
    ensures g.autoMove ==>
              exists l: Local ::
                && l.player.Valid()
                && Adjacent(g.player, l.player)
                && StoredPosition(l.server, l.player)
                && OnlyKeyChanged(g.server, l.server, g.player.name)
                && MovePhase(g, events, moveDraw, draws) == Consume(g.(player := l.player, server := l.server), events, 0, draws)
    ensures !g.autoMove ==> MovePhase(g, events, moveDraw, draws) == Consume(g, events, 0, draws)
  {
    if g.autoMove {
      var l := RandomMove(g.player, g.server, moveDraw);
      ShiftedUnitSteps(g.player);
      assert l.player.Valid();
      assert MovePhase(g, events, moveDraw, draws) == Consume(g.(player := l.player, server := l.server), events, 0, draws);
    }
  }

  /**
   * A move frame ends the loop exactly when a quit request is among the
   * buffered and newly arrived events (other frames never end it: see Tick).
   */
  lemma TickStopsIff(g: State, arrived: seq<Event>, moveDraw: nat, draws: nat -> ColorDraw)
    requires g.player.Valid() && (g.counter + 1) % FRAMES_PER_MOVE == 0
    ensures Tick(g, arrived, moveDraw, draws).Stop? <==> HasQuit(g.queue + arrived)
  {
    MovePhaseEndsIff(g.(counter := 0, queue := []), g.queue + arrived, moveDraw, draws);
  }

  /** The move phase ends the loop exactly when a quit request is among the events. */
  lemma MovePhaseEndsIff(g: State, events: seq<Event>, moveDraw: nat, draws: nat -> ColorDraw)
    requires g.player.Valid()
    ensures MovePhase(g, events, moveDraw, draws).Ended? <==> HasQuit(events)
  {
    if g.autoMove {
      var l := RandomMove(g.player, g.server, moveDraw);
      ConsumeEndsIff(g.(player := l.player, server := l.server), events, 0, draws);
    } else {
      ConsumeEndsIff(g, events, 0, draws);
    }
  }


  /**
   * `p` and `s` are what handing `events` to `handle_event` yields after one
   * auto-move of `p0` to an adjacent cell, published to `s0`.
   */
  ghost predicate HandledAfterAutoMove(p0: Player, s0: Server, events: seq<Event>, draws: nat -> ColorDraw, p: Player, s: Server)
  {
    exists l: Local ::
      && l.player.Valid()
      && Adjacent(p0, l.player)
      && StoredPosition(l.server, l.player)
      && OnlyKeyChanged(s0, l.server, p0.name)
      && p == HandleAll(l.player, l.server, events, 0, draws).player
      && s == HandleAll(l.player, l.server, events, 0, draws).server
  }

  /**
   * A move frame without a quit request: the loop goes on, auto-move ends
   * flipped by the parity of the `a` presses in the batch, and the player
   * and the server are those of handing every event of the batch to
   * `handle_event`, starting after one auto-move to an adjacent cell when
   * auto-move was on and from the player as it was otherwise.
   */
  lemma TickMoveFrame(g: State, arrived: seq<Event>, moveDraw: nat, draws: nat -> ColorDraw)
    requires g.player.Valid() && (g.counter + 1) % FRAMES_PER_MOVE == 0
    requires !HasQuit(g.queue + arrived)
    ensures var r := Tick(g, arrived, moveDraw, draws);
      r.Continue? && r.st.autoMove == (g.autoMove != (Toggles(g.queue + arrived) % 2 == 1))
    ensures var r := Tick(g, arrived, moveDraw, draws);
      g.autoMove ==> HandledAfterAutoMove(g.player, g.server, g.queue + arrived, draws, r.st.player, r.st.server)
    ensures var r := Tick(g, arrived, moveDraw, draws);
      && (!g.autoMove ==> r.st.player == HandleAll(g.player, g.server, g.queue + arrived, 0, draws).player)
      && (!g.autoMove ==> r.st.server == HandleAll(g.player, g.server, g.queue + arrived, 0, draws).server)
  {
    MovePhaseNoQuit(g.(counter := 0, queue := []), g.queue + arrived, moveDraw, draws);
    TickIsMovePhase(g, arrived, moveDraw, draws);
  }

  /** On a move frame the frame's outcome is the move phase's on the whole batch. */
  lemma TickIsMovePhase(g: State, arrived: seq<Event>, moveDraw: nat, draws: nat -> ColorDraw)
    requires g.player.Valid() && (g.counter + 1) % FRAMES_PER_MOVE == 0
    ensures var m := MovePhase(g.(counter := 0, queue := []), g.queue + arrived, moveDraw, draws);
      && Tick(g, arrived, moveDraw, draws).st == m.st
      && (Tick(g, arrived, moveDraw, draws).Continue? <==> m.Live?)
  {
  }

  /** The move phase of TickMoveFrame, on the drained batch itself. */
  lemma MovePhaseNoQuit(g: State, events: seq<Event>, moveDraw: nat, draws: nat -> ColorDraw)
    requires g.player.Valid() && !HasQuit(events)
    ensures var r := MovePhase(g, events, moveDraw, draws);
      r.Live? && r.st.autoMove == (g.autoMove != (Toggles(events) % 2 == 1))
    ensures var r := MovePhase(g, events, moveDraw, draws);
      g.autoMove ==> HandledAfterAutoMove(g.player, g.server, events, draws, r.st.player, r.st.server)
    ensures var r := MovePhase(g, events, moveDraw, draws);
      && (!g.autoMove ==> r.st.player == HandleAll(g.player, g.server, events, 0, draws).player)
      && (!g.autoMove ==> r.st.server == HandleAll(g.player, g.server, events, 0, draws).server)
  {
    assert events[0..] == events;
    var g' := g;
    if g.autoMove {
      var l := RandomMove(g.player, g.server, moveDraw);
      ShiftedUnitSteps(g.player);
      assert l.player.Valid();
      g' := g.(player := l.player, server := l.server);
    }
    assert MovePhase(g, events, moveDraw, draws) == Consume(g', events, 0, draws);
    ConsumeToggles(g', events, 0, draws);
    ConsumeHandlesAll(g', events, 0, draws);
    if g.autoMove {
      var r := Consume(g', events, 0, draws);
      assert HandledAfterAutoMove(g.player, g.server, events, draws, r.st.player, r.st.server) by {
        var l := Local(g'.player, g'.server);
        assert l.player.Valid() && Adjacent(g.player, l.player);
      }
    }
  }

  /**
   * On a move frame with nothing queued, auto-move displaces the player by
   * exactly one cell and stores the new position; without auto-move
   * nothing changes.
   */
  lemma TickAutoMove(g: State, moveDraw: nat, draws: nat -> ColorDraw)
    requires g.player.Valid() && (g.counter + 1) % FRAMES_PER_MOVE == 0 && g.queue == []
    ensures Tick(g, [], moveDraw, draws).Continue?
    ensures var r := Tick(g, [], moveDraw, draws);
      g.autoMove ==> Adjacent(g.player, r.st.player) && StoredPosition(r.st.server, r.st.player)
    ensures var r := Tick(g, [], moveDraw, draws);
      !g.autoMove ==> r.st.player == g.player && r.st.server == g.server
  {
  }

  /* --------------------------------------------------------------- start-up */

  /** The loop's starting state and the list displayed before the first frame. */
  datatype Start = Start(st: State, shown: seq<Sprite>)

  /**
   * Start-up as game.py writes it: `Player(name, H, W, server)` with
   * `W, H = screen.size()`, so the player's width is the screen height.
   * The player is not joined to the server.
   */
  function LaunchAsWritten(name: string, screenW: int, screenH: int, s: Server,
                           xDraw: nat, yDraw: nat, cd: ColorDraw, autoMove: bool): (r: Result<Start, Error>)
    ensures r.Success? <==> screenW >= 1 && screenH >= 1
    ensures r.Success? ==> r.value.st.player.Valid()
    ensures r.Success? ==> 0 <= r.value.st.player.x < screenH && 0 <= r.value.st.player.y < screenW
    ensures r.Success? ==>
              && r.value.st.player.name == name
              && r.value.st.player.width == screenH && r.value.st.player.height == screenW
    ensures r.Success? ==>
              && r.value.st == State(r.value.st.player, s, autoMove, 0, [])
              && r.value.shown == Show(r.value.st.player)
  {
    match NewPlayer(name, screenH, screenW, xDraw, yDraw, cd)
    case Failure(e) => Failure(e)
    case Success(p) => Success(Start(State(p, s, autoMove, 0, []), Show(p)))
  }

  /** On a screen 10 wide and 20 high the as-written start-up can place the player at x = 15. */
  lemma LaunchAsWrittenLeavesScreen()
    ensures var r := LaunchAsWritten("p", 10, 20, map[], 15, 0, ColorDraw(0, 0, 0), false);
      r.Success? && r.value.st.player.x == 15 && r.value.st.player.x >= 10
  {
  }

  /** Start-up with the screen's width as the player's width, as the Player signature intends. */
  function Launch(name: string, screenW: int, screenH: int, s: Server,
                  xDraw: nat, yDraw: nat, cd: ColorDraw, autoMove: bool): (r: Result<Start, Error>)
    ensures r.Success? <==> screenW >= 1 && screenH >= 1
    ensures r.Success? ==> r.value.st.player.Valid() && r.value.st.counter == 0
    ensures r.Success? ==> r.value.st.player.width == screenW && r.value.st.player.height == screenH
    ensures r.Success? ==> r.value.st.server == s && r.value.st.autoMove == autoMove
    ensures r.Success? ==>
              && r.value.st.player.name == name
              && r.value.st == State(r.value.st.player, s, autoMove, 0, [])
              && r.value.shown == Show(r.value.st.player)
  {
    match NewPlayer(name, screenW, screenH, xDraw, yDraw, cd)
    case Failure(e) => Failure(e)
    case Success(p) => Success(Start(State(p, s, autoMove, 0, []), Show(p)))
  }

  /**
   * The as-written start-up is the corrected one on a screen with width and
   * height exchanged: the two differ only in the swapped sizes.
   */
  lemma LaunchAsWrittenSwapsSize(name: string, screenW: int, screenH: int, s: Server,
                                 xDraw: nat, yDraw: nat, cd: ColorDraw, autoMove: bool)
    ensures LaunchAsWritten(name, screenW, screenH, s, xDraw, yDraw, cd, autoMove)
         == Launch(name, screenH, screenW, s, xDraw, yDraw, cd, autoMove)
  {
  }

  /** Every position the corrected start-up or any later frame yields is on the screen. */
  lemma StaysOnScreen(name: string, screenW: int, screenH: int, s: Server,
                      xDraw: nat, yDraw: nat, cd: ColorDraw, autoMove: bool, frames: seq<Frame>)
    requires Launch(name, screenW, screenH, s, xDraw, yDraw, cd, autoMove).Success?
    ensures var g := Launch(name, screenW, screenH, s, xDraw, yDraw, cd, autoMove).value.st;
      var p := Run(g, frames).last.st.player;
      0 <= p.x < screenW && 0 <= p.y < screenH
  {
  }
}

=== FILE: modular.dfy ===
/**
 * Facts about Dafny's `%` with a positive modulus, which is also Python's
 * `%` with a positive modulus: the remainder is the unique representative in
 * [0, n) of the dividend's residue class.
 */
module Modular {

  lemma MulAtLeast(d: int, n: int)
    requires d >= 1 && n >= 1
    ensures d * n >= n
  {
  }

  /** Any decomposition a == q*n + r with 0 <= r < n gives the remainder. */
  lemma ModUnique(a: int, n: int, q: int, r: int)
    requires n >= 1 && 0 <= r < n && a == q * n + r
    ensures a % n == r
  {
    var q', r' := a / n, a % n;
    assert (q - q') * n == r' - r;
    if q - q' >= 1 {
      MulAtLeast(q - q', n);
    } else if q' - q >= 1 {
      MulAtLeast(q' - q, n);
    }
  }

  /** The remainder differs from the dividend by a multiple of n. */
  lemma ModCongruent(a: int, n: int)
    requires n >= 1
    ensures (a % n - a) % n == 0
  {
    ModUnique(a % n - a, n, -(a / n), 0);
  }

  /** A value of [0, n) congruent to c modulo n is the remainder of c. */
  lemma ResidueIsUnique(a: int, c: int, n: int)
    requires n >= 1 && 0 <= a < n && (a - c) % n == 0
    ensures a == c % n
  {
    var q := (a - c) / n;
    assert a - c == q * n;
    ModUnique(c, n, -q, a);
  }

  /** Shifting a value of [0, n) by d, reducing, and shifting back by -d gives it back. */
  lemma ShiftBack(x: int, d: int, n: int)
    requires n >= 1 && 0 <= x < n
    ensures ((x + d) % n - d) % n == x
  {
    var q := (x + d) / n;
    assert (x + d) % n - d == -q * n + x;
    ModUnique((x + d) % n - d, n, -q, x);
  }

  /** A value of [0, n) is its own remainder. */
  lemma ModOfResidue(x: int, n: int)
    requires n >= 1 && 0 <= x < n
    ensures x % n == x
  {
    ModUnique(x, n, 0, x);
  }
}

=== FILE: player.dfy ===
/**
 * The local player of the game client (redis/player.py): a position on a
 * width x height torus and a colour, mirrored into the Redis hash stored
 * under the player's name.  Python mutates the object in place; here each
 * operation returns the new player together with the new server state.
 */
module LocalPlayer {
  import opened Wrappers
  import opened Store
  import Random
  import Modular

  /* ---------------------------------------------------------------- colours */

  /** A colour as `random_color` builds it: three channels in [0, 255]. */
  predicate IsColor(c: seq<int>)
  {
    |c| == 3 && forall i :: 0 <= i < |c| ==> 0 <= c[i] <= 255
  }

  /** The three draws consumed by one call of `random_color`. */
  datatype ColorDraw = ColorDraw(red: nat, green: nat, blue: nat)

  /** random_color(): three `randint(0, 255)` channels. */
  function RandomColor(d: ColorDraw): (c: seq<int>)
    ensures IsColor(c)
  {
    [Random.RandInt(0, 255, d.red).value,
     Random.RandInt(0, 255, d.green).value,
     Random.RandInt(0, 255, d.blue).value]
  }

  lemma RandomColorReaches(c: seq<int>)
    requires IsColor(c)
    ensures exists d: ColorDraw :: RandomColor(d) == c
  {
    RandomColorOf(c);
  }

  /** Drawing each channel's own value yields the colour. */
  lemma RandomColorOf(c: seq<int>)
    requires IsColor(c)
    ensures RandomColor(ColorDraw(c[0], c[1], c[2])) == c
  {
    var d := ColorDraw(c[0], c[1], c[2]);
    Random.RandIntAt(0, 255, c[0]);
    Random.RandIntAt(0, 255, c[1]);
    Random.RandIntAt(0, 255, c[2]);
    assert RandomColor(d) == c;
  }

  /* ------------------------------------------------------- candidate steps */

  function Abs(n: int): nat
  {
    if n < 0 then -n else n
  }

  /** The coordinate values both loops of the `random_move` comprehension run over. */
  const Axis: seq<int> := [-1, 0, 1]

  /** `[(x, y) for y in ys]` for one fixed x. */
  function Row(x: int, ys: seq<int>): (r: seq<(int, int)>)
    ensures |r| == |ys|
    ensures forall k :: 0 <= k < |r| ==> r[k] == (x, ys[k])
  {
    if |ys| == 0 then [] else [(x, ys[0])] + Row(x, ys[1..])
  }

  /** `[(x, y) for x in xs for y in ys]`: x in the outer loop, y in the inner one. */
  function Pairs(xs: seq<int>, ys: seq<int>): seq<(int, int)>
  {
    if |xs| == 0 then [] else Row(xs[0], ys) + Pairs(xs[1..], ys)
  }

  /** The `if abs(x+y) == 1` filter of the comprehension, keeping order. */
  function UnitSum(ps: seq<(int, int)>): seq<(int, int)>
  {
    if |ps| == 0 then []
    else if Abs(ps[0].0 + ps[0].1) == 1 then [ps[0]] + UnitSum(ps[1..])
    else UnitSum(ps[1..])
  }

  lemma {:induction false} PairsMembers(xs: seq<int>, ys: seq<int>, x: int, y: int)
    ensures (x, y) in Pairs(xs, ys) <==> x in xs && y in ys
  {
    if |xs| > 0 {
      PairsMembers(xs[1..], ys, x, y);
      assert xs == [xs[0]] + xs[1..];
      if y in ys {
        var k :| 0 <= k < |ys| && ys[k] == y;
        assert Row(xs[0], ys)[k] == (xs[0], y);
      }
    }
  }

  lemma {:induction false} UnitSumMembers(ps: seq<(int, int)>, p: (int, int))
    ensures p in UnitSum(ps) <==> p in ps && Abs(p.0 + p.1) == 1
  {
    if |ps| > 0 {
      UnitSumMembers(ps[1..], p);
      assert ps == [ps[0]] + ps[1..];
    }
  }

  /**
   * The list `random_move` chooses from.  The comprehension keeps the pairs
   * of {-1,0,1}^2 whose SUM has absolute value 1; that this is the set of
   * unit steps is what `CandidatesAreUnitSteps` proves.
   */
  function Candidates(): (r: seq<(int, int)>)
    ensures r == [(-1, 0), (0, -1), (0, 1), (1, 0)]
  {
    GridListing();
    var grid := Pairs(Axis, Axis);
    FilterListing();
    UnitSum(grid)
  }

  /** What the filter keeps of the nine pairs. */
  lemma FilterListing()
    ensures UnitSum([(-1, -1), (-1, 0), (-1, 1), (0, -1), (0, 0), (0, 1), (1, -1), (1, 0), (1, 1)])
         == [(-1, 0), (0, -1), (0, 1), (1, 0)]
  {
    FilterListingTail();
    assert UnitSum([(0, -1), (0, 0), (0, 1), (1, -1), (1, 0), (1, 1)]) == [(0, -1), (0, 1), (1, 0)];
    assert UnitSum([(-1, 1), (0, -1), (0, 0), (0, 1), (1, -1), (1, 0), (1, 1)]) == [(0, -1), (0, 1), (1, 0)];
    assert UnitSum([(-1, 0), (-1, 1), (0, -1), (0, 0), (0, 1), (1, -1), (1, 0), (1, 1)])
        == [(-1, 0), (0, -1), (0, 1), (1, 0)];
  }

  lemma FilterListingTail()
    ensures UnitSum([(0, 0), (0, 1), (1, -1), (1, 0), (1, 1)]) == [(0, 1), (1, 0)]
  {
    assert UnitSum([(1, 1)]) == [];
    assert UnitSum([(1, 0), (1, 1)]) == [(1, 0)];
    assert UnitSum([(1, -1), (1, 0), (1, 1)]) == [(1, 0)];
    assert UnitSum([(0, 1), (1, -1), (1, 0), (1, 1)]) == [(0, 1), (1, 0)];
  }

  /** The nine pairs the comprehension enumerates, in its order. */
  lemma GridListing()
    ensures Pairs(Axis, Axis)
         == [(-1, -1), (-1, 0), (-1, 1), (0, -1), (0, 0), (0, 1), (1, -1), (1, 0), (1, 1)]
  {
    assert Axis[1..] == [0, 1] && Axis[1..][1..] == [1] && Axis[1..][1..][1..] == [];
    assert Pairs(Axis[1..][1..], Axis) == Row(1, Axis);
    assert Pairs(Axis[1..], Axis) == Row(0, Axis) + Row(1, Axis);
  }

  /** For deltas in {-1,0,1}, |dx+dy| == 1 is the same test as |dx|+|dy| == 1. */
  lemma CandidatesAreUnitSteps(dx: int, dy: int)
    ensures (dx, dy) in Candidates() <==> Abs(dx) + Abs(dy) == 1
  {
    PairsMembers(Axis, Axis, dx, dy);
    UnitSumMembers(Pairs(Axis, Axis), (dx, dy));
  }

  /** Module function random_move(): one of the candidate steps. */
  function RandomStep(draw: nat): (m: (int, int))
    ensures m in Candidates()
    ensures Abs(m.0) + Abs(m.1) == 1
  {
    CandidatesAreUnitSteps(Candidates()[draw % 4].0, Candidates()[draw % 4].1);
    Random.Choice(Candidates(), draw).value
  }

  lemma RandomStepReaches(m: (int, int))
    requires Abs(m.0) + Abs(m.1) == 1
    ensures exists draw: nat :: RandomStep(draw) == m
  {
    CandidatesAreUnitSteps(m.0, m.1);
    var k :| 0 <= k < 4 && Candidates()[k] == m;
    Modular.ModOfResidue(k, 4);
    assert RandomStep(k) == m;
  }

  /* ---------------------------------------------------------------- player */

  /**
   * The fields of a `Player` object.  The Python object also holds the
   * server connection; here the server is passed to each operation.
   */
  datatype Player = Player(name: string, width: int, height: int, x: int, y: int, color: seq<int>)
  {
    /** What `__init__` guarantees by succeeding: both dimensions are at least 1. */
    predicate WellFormed()
    {
      width >= 1 && height >= 1
    }

    /** The state every player reachable from `__init__` is in. */
    predicate Valid()
    {
      WellFormed() && 0 <= x < width && 0 <= y < height && IsColor(color)
    }
  }

  /** The exception `__init__` can raise: `randint` on an empty range. */
  datatype Error = EmptyRange

  /** Player(name, width, height, server): random position and colour. */
  function NewPlayer(name: string, width: int, height: int, xDraw: nat, yDraw: nat, cd: ColorDraw)
    : (r: Result<Player, Error>)
    ensures r.Success? <==> width >= 1 && height >= 1
    ensures r.Success? ==> r.value.Valid()
    ensures r.Success? ==> r.value.name == name && r.value.width == width && r.value.height == height
  {
    match Random.RandInt(0, width - 1, xDraw)
    case None => Failure(EmptyRange)
    case Some(x) =>
      match Random.RandInt(0, height - 1, yDraw)
      case None => Failure(EmptyRange)
      case Some(y) => Success(Player(name, width, height, x, y, RandomColor(cd)))
  }

  lemma NewPlayerReaches(p: Player)
    requires p.Valid()
    ensures exists xd: nat, yd: nat, cd: ColorDraw :: NewPlayer(p.name, p.width, p.height, xd, yd, cd) == Success(p)
  {
    var cd := ColorDraw(p.color[0], p.color[1], p.color[2]);
    RandomColorOf(p.color);
    Random.RandIntAt(0, p.width - 1, p.x);
    Random.RandIntAt(0, p.height - 1, p.y);
    assert NewPlayer(p.name, p.width, p.height, p.x, p.y, cd) == Success(p);
  }

  /* ------------------------------------------------------- stored encoding */

  const PositionField: string := "position"
  const ColorField: string := "color"

  function DecodePosition(j: Json): Option<(int, int)>
  {
    match j
    case JList(items) =>
      if |items| == 2 && items[0].JInt? && items[1].JInt? then Some((items[0].n, items[1].n)) else None
    case JInt(_) => None
  }

  /** json.dumps([x, y]). */
  function EncodePosition(x: int, y: int): (j: Json)
    ensures DecodePosition(j) == Some((x, y))
  {
    JList([JInt(x), JInt(y)])
  }

  lemma DecodePositionInverts(j: Json, x: int, y: int)
    requires DecodePosition(j) == Some((x, y))
    ensures EncodePosition(x, y) == j
  {
    assert j.items == [JInt(x), JInt(y)];
  }

  /** Reads the integer list out of json.dumps([c]): the colour sits inside an extra list. */
  function DecodeColor(j: Json): Option<seq<int>>
  {
    if j.JList? && |j.items| == 1 && j.items[0].JList?
       && forall k :: 0 <= k < |j.items[0].items| ==> j.items[0].items[k].JInt?
    then Some(seq(|j.items[0].items|, k requires 0 <= k < |j.items[0].items| => j.items[0].items[k].n))
    else None
  }

  /** json.dumps([c]), the shape player.py stores colours in. */
  function EncodeColor(c: seq<int>): (j: Json)
    ensures DecodeColor(j) == Some(c)
  {
    var ints := seq(|c|, k requires 0 <= k < |c| => JInt(c[k]));
    assert seq(|ints|, k requires 0 <= k < |ints| => ints[k].n) == c;
    JList([JList(ints)])
  }

  lemma DecodeColorInverts(j: Json, c: seq<int>)
    requires DecodeColor(j) == Some(c)
    ensures EncodeColor(c) == j
  {
    assert j.items[0].items == seq(|c|, k requires 0 <= k < |c| => JInt(c[k]));
    assert j.items == [j.items[0]];
  }

  /** The server holds `p`'s position under its name. */
  predicate StoredPosition(s: Server, p: Player)
  {
    p.name in s && PositionField in s[p.name] && DecodePosition(s[p.name][PositionField]) == Some((p.x, p.y))
  }

  /** The server holds `p`'s colour under its name. */
  predicate StoredColor(s: Server, p: Player)
  {
    p.name in s && ColorField in s[p.name] && DecodeColor(s[p.name][ColorField]) == Some(p.color)
  }

  /* -------------------------------------------------------------- movement */

  /** The player's new state and the server's, returned together. */
  datatype Local = Local(player: Player, server: Server)

  /** One step up a coordinate of a torus of size n. */
  function Next(a: int, n: int): int
  {
    if a == n - 1 then 0 else a + 1
  }

  /** One step down a coordinate of a torus of size n. */
  function Prev(a: int, n: int): int
  {
    if a == 0 then n - 1 else a - 1
  }

  /**
   * The position arithmetic of move(dx, dy): each coordinate becomes the
   * representative in [0, size) of its shifted value (Python's `%` with a
   * positive modulus agrees with Dafny's).
   */
  function Shifted(p: Player, dx: int, dy: int): (q: Player)
    requires p.WellFormed()
    ensures q == p.(x := q.x, y := q.y)
    ensures 0 <= q.x < p.width && 0 <= q.y < p.height
  {
    p.(x := (p.x + dx) % p.width, y := (p.y + dy) % p.height)
  }

  /** move(dx, dy): shifts the position, then rewrites the position field of the player's hash. */
  function Move(p: Player, s: Server, dx: int, dy: int): (r: Local)
    requires p.WellFormed()
    ensures r.player == Shifted(p, dx, dy)
    ensures StoredPosition(r.server, r.player)
    ensures OnlyKeyChanged(s, r.server, p.name)
    ensures OnlyFieldsChanged(HashOf(s, p.name), HashOf(r.server, p.name), {PositionField})
  {
    var q := Shifted(p, dx, dy);
    Local(q, HSet(s, p.name, PositionField, EncodePosition(q.x, q.y)))
  }

  /**
   * Each new coordinate is congruent to the shifted old one; with the bounds
   * of `Shifted` this makes it the only such cell (ShiftedIsOnlyResidue).
   */
  lemma ShiftedIsResidue(p: Player, dx: int, dy: int)
    requires p.WellFormed()
    ensures (Shifted(p, dx, dy).x - (p.x + dx)) % p.width == 0
    ensures (Shifted(p, dx, dy).y - (p.y + dy)) % p.height == 0
  {
    Modular.ModCongruent(p.x + dx, p.width);
    Modular.ModCongruent(p.y + dy, p.height);
  }

  /**
   * Congruence and the bounds pin the move down: the only in-grid cell
   * congruent to the shifted position is the one `Shifted` yields.
   */
  lemma ShiftedIsOnlyResidue(p: Player, dx: int, dy: int, x: int, y: int)
    requires p.WellFormed() && 0 <= x < p.width && 0 <= y < p.height
    requires (x - (p.x + dx)) % p.width == 0 && (y - (p.y + dy)) % p.height == 0
    ensures x == Shifted(p, dx, dy).x && y == Shifted(p, dx, dy).y
  {
    Modular.ResidueIsUnique(x, p.x + dx, p.width);
    Modular.ResidueIsUnique(y, p.y + dy, p.height);
  }

  /** A unit step from a cell of the torus lands on its neighbour, wrapping at the edges. */
  lemma ShiftedUnitSteps(p: Player)
    requires p.Valid()
    ensures Shifted(p, 1, 0) == p.(x := Next(p.x, p.width))
    ensures Shifted(p, -1, 0) == p.(x := Prev(p.x, p.width))
    ensures Shifted(p, 0, 1) == p.(y := Next(p.y, p.height))
    ensures Shifted(p, 0, -1) == p.(y := Prev(p.y, p.height))
  {
    StepCoordinate(p.x, p.width);
    StepCoordinate(p.y, p.height);
    Modular.ModOfResidue(p.x, p.width);
    Modular.ModOfResidue(p.y, p.height);
  }

  lemma StepCoordinate(a: int, n: int)
    requires 0 <= a < n
    ensures (a + 1) % n == Next(a, n) && (a - 1) % n == Prev(a, n)
  {
    if a == n - 1 {
      Modular.ModUnique(a + 1, n, 1, 0);
    } else {
      Modular.ModUnique(a + 1, n, 0, a + 1);
    }
    if a == 0 {
      Modular.ModUnique(a - 1, n, -1, n - 1);
    } else {
      Modular.ModUnique(a - 1, n, 0, a - 1);
    }
  }

  /** Walking off one edge re-enters at the opposite edge. */
  lemma MoveWrapsAround(p: Player, s: Server)
    requires p.Valid()
    ensures p.x == p.width - 1 ==> Move(p, s, 1, 0).player.x == 0
    ensures p.x == 0 ==> Move(p, s, -1, 0).player.x == p.width - 1
    ensures p.y == p.height - 1 ==> Move(p, s, 0, 1).player.y == 0
    ensures p.y == 0 ==> Move(p, s, 0, -1).player.y == p.height - 1
  {
    ShiftedUnitSteps(p);
  }

  /** Shifting by (dx, dy) and then by (-dx, -dy) brings a player back where it was. */
  lemma ShiftedUndo(p: Player, dx: int, dy: int)
    requires p.Valid()
    ensures Shifted(Shifted(p, dx, dy), -dx, -dy) == p
  {
    Modular.ShiftBack(p.x, dx, p.width);
    Modular.ShiftBack(p.y, dy, p.height);
  }

  /** `q` is `p` moved one cell in one of the four directions, with wrap-around. */
  predicate Adjacent(p: Player, q: Player)
  {
    || q == p.(x := Next(p.x, p.width))
    || q == p.(x := Prev(p.x, p.width))
    || q == p.(y := Next(p.y, p.height))
    || q == p.(y := Prev(p.y, p.height))
  }

  /** Player.random_move(): a move by one of the candidate steps. */
  function RandomMove(p: Player, s: Server, draw: nat): (r: Local)
    requires p.WellFormed()
    ensures p.Valid() ==> Adjacent(p, r.player)
    ensures StoredPosition(r.server, r.player)
    ensures OnlyKeyChanged(s, r.server, p.name)
    ensures OnlyFieldsChanged(HashOf(s, p.name), HashOf(r.server, p.name), {PositionField})
  {
    var step := RandomStep(draw);
    assert p.Valid() ==> Adjacent(p, Shifted(p, step.0, step.1)) by {
      if p.Valid() {
        ShiftedUnitSteps(p);
      }
    }
    Move(p, s, step.0, step.1)
  }

  /** Every neighbour of a valid player is the outcome of some random move. */
  lemma RandomMoveReaches(p: Player, s: Server, q: Player)
    requires p.Valid() && Adjacent(p, q)
    ensures exists draw: nat :: RandomMove(p, s, draw).player == q
  {
    ShiftedUnitSteps(p);
    var draw: nat :=
      if q == p.(x := Prev(p.x, p.width)) then 0
      else if q == p.(y := Prev(p.y, p.height)) then 1
      else if q == p.(y := Next(p.y, p.height)) then 2
      else 3;
    Modular.ModOfResidue(draw, 4);
    assert RandomStep(draw) == Candidates()[draw];
    assert RandomMove(p, s, draw).player == q;
  }

  /* ---------------------------------------------------------------- events */

  /** The keys the client reacts to; every other key is `OtherKey`. */
  datatype Key = Up | Down | Left | Right | KeyC | KeyA | KeyQ | OtherKey

  /** A pygame event as far as the client looks at it. */
  datatype Event = Quit | KeyDown(key: Key) | OtherEvent

  /**
   * handle_event(event): arrow keys move one cell (up is towards y - 1),
   * `c` draws a new colour and stores it, every other event is ignored.
   */
  function HandleEvent(p: Player, s: Server, e: Event, cd: ColorDraw): (r: Local)
    requires p.Valid()
    ensures r.player.Valid()
    ensures e == KeyDown(Up) ==> r.player == p.(y := Prev(p.y, p.height))
    ensures e == KeyDown(Down) ==> r.player == p.(y := Next(p.y, p.height))
    ensures e == KeyDown(Right) ==> r.player == p.(x := Next(p.x, p.width))
    ensures e == KeyDown(Left) ==> r.player == p.(x := Prev(p.x, p.width))
    ensures e.KeyDown? && e.key in {Up, Down, Left, Right} ==>
              && StoredPosition(r.server, r.player)
              && OnlyKeyChanged(s, r.server, p.name)
              && OnlyFieldsChanged(HashOf(s, p.name), HashOf(r.server, p.name), {PositionField})
    ensures e == KeyDown(KeyC) ==>
              && r.player == p.(color := RandomColor(cd))
              && StoredColor(r.server, r.player)
              && OnlyKeyChanged(s, r.server, p.name)
              && OnlyFieldsChanged(HashOf(s, p.name), HashOf(r.server, p.name), {ColorField})
    ensures !(e.KeyDown? && e.key in {Up, Down, Left, Right, KeyC}) ==> r == Local(p, s)
  {
    ShiftedUnitSteps(p);
    match e
    case KeyDown(Up) => Move(p, s, 0, -1)
    case KeyDown(Down) => Move(p, s, 0, 1)
    case KeyDown(Right) => Move(p, s, 1, 0)
    case KeyDown(Left) => Move(p, s, -1, 0)
    case KeyDown(KeyC) =>
      var c := RandomColor(cd);
      Local(p.(color := c), HSet(s, p.name, ColorField, EncodeColor(c)))
    case _ => Local(p, s)
  }

  /* ---------------------------------------------------------- join / leave */

  /** join(): writes both fields of the player's hash from its current state. */
  function Join(p: Player, s: Server): (r: Server)
    ensures StoredPosition(r, p) && StoredColor(r, p)
    ensures OnlyKeyChanged(s, r, p.name)
    ensures OnlyFieldsChanged(HashOf(s, p.name), HashOf(r, p.name), {PositionField, ColorField})
  {
    HSetMapping(s, p.name, map[PositionField := EncodePosition(p.x, p.y), ColorField := EncodeColor(p.color)])
  }

  /** leave(): deletes the player's whole hash. */
  function Leave(p: Player, s: Server): (r: Server)
    ensures p.name !in r
    ensures OnlyKeyChanged(s, r, p.name)
  {
    Delete(s, p.name)
  }

  /** Joining and then leaving leaves the server as if the player's key had only been deleted. */
  lemma JoinThenLeave(p: Player, s: Server)
    ensures Leave(p, Join(p, s)) == Leave(p, s)
  {
    var a, b := Leave(p, Join(p, s)), Leave(p, s);
    assert a.Keys == b.Keys;
  }
}

=== FILE: random.dfy ===
/**
 * Python's `random.randint` and `random.choice`, with the randomness handed
 * in by the caller as a natural-number draw.  Each function maps every draw
 * into the range Python promises, and the `...Reaches` lemmas show that every
 * value of that range is produced by some draw, so the draw loses nothing.
 */
module Random {
  import opened Wrappers
  import Modular

  /** randint(lo, hi): a value of the closed range; Python raises ValueError when it is empty. */
  function RandInt(lo: int, hi: int, draw: nat): (r: Option<int>)
    ensures r.Some? <==> lo <= hi
    ensures r.Some? ==> lo <= r.value <= hi
  {
    if lo <= hi then Some(lo + draw % (hi - lo + 1)) else None
  }

  /** The draw v - lo yields v. */
  lemma RandIntAt(lo: int, hi: int, v: int)
    requires lo <= v <= hi
    ensures RandInt(lo, hi, v - lo) == Some(v)
  {
    Modular.ModOfResidue(v - lo, hi - lo + 1);
  }

  lemma RandIntReaches(lo: int, hi: int, v: int)
    requires lo <= v <= hi
    ensures exists draw: nat :: RandInt(lo, hi, draw) == Some(v)
  {
    RandIntAt(lo, hi, v);
  }

  /** choice(xs): one element of `xs`; Python raises IndexError on an empty sequence. */
  function Choice<T>(xs: seq<T>, draw: nat): (r: Option<T>)
    ensures r.Some? <==> |xs| > 0
    ensures r.Some? ==> r.value in xs
  {
    if |xs| == 0 then None else Some(xs[draw % |xs|])
  }

  lemma ChoiceReaches<T>(xs: seq<T>, i: nat)
    requires i < |xs|
    ensures exists draw: nat :: Choice(xs, draw) == Some(xs[i])
  {
    Modular.ModOfResidue(i, |xs|);
    assert Choice(xs, i) == Some(xs[i]);
  }
}

=== FILE: store.dfy ===
/**
 * The Redis server the game client writes to, reduced to the commands the
 * client uses: HSET on one field, HSET with a mapping, and DEL.  A Redis
 * hash is a map from field names to values; the JSON text the client stores
 * is kept as a small JSON tree instead of a string.
 */
module Store {

  /** The part of JSON that the client ever encodes: integers and lists. */
  datatype Json = JInt(n: int) | JList(items: seq<Json>)

  type Hash = map<string, Json>

  /**
   * Key -> hash: the server as this client's own commands leave it.  Other
   * clients share the server; their writes are not part of this model.
   */
  type Server = map<string, Hash>

  /** The hash stored under `key`, or the empty hash Redis creates on first write. */
  function HashOf(s: Server, key: string): Hash
  {
    if key in s then s[key] else map[]
  }

  /** Every key other than `key` is present in `r` exactly when in `s`, with the same hash. */
  predicate OnlyKeyChanged(s: Server, r: Server, key: string)
  {
    r - {key} == s - {key}
  }

  /** Every field outside `fields` is present in `h'` exactly when in `h`, with the same value. */
  predicate OnlyFieldsChanged(h: Hash, h': Hash, fields: set<string>)
  {
    h' - fields == h - fields
  }

  /** HSET key field value: creates the hash if needed and overwrites one field. */
  function HSet(s: Server, key: string, field: string, v: Json): (r: Server)
    ensures key in r && field in r[key] && r[key][field] == v
    ensures OnlyKeyChanged(s, r, key)
    ensures OnlyFieldsChanged(HashOf(s, key), r[key], {field})
  {
    s[key := HashOf(s, key)[field := v]]
  }

  /** HSET key mapping=m: writes every field of `m`, keeping the hash's other fields. */
  function HSetMapping(s: Server, key: string, m: Hash): (r: Server)
    ensures key in r
    ensures forall f :: f in m ==> f in r[key] && r[key][f] == m[f]
    ensures OnlyKeyChanged(s, r, key)
    ensures OnlyFieldsChanged(HashOf(s, key), r[key], m.Keys)
  {
    s[key := HashOf(s, key) + m]
  }

  /** DEL key: removes the whole hash; deleting a missing key is not an error. */
  function Delete(s: Server, key: string): (r: Server)
    ensures key !in r
    ensures OnlyKeyChanged(s, r, key)
  {
    s - {key}
  }
}

=== FILE: wrappers.dfy ===
/** Optional values and results with an error, shared by the rest of the model. */
module Wrappers {

  /** A value that may be missing. */
  datatype Option<+T> = None | Some(value: T)

  /** Either a value or the error the Python code would raise instead. */
  datatype Result<+T, +E> = Success(value: T) | Failure(error: E)
}
